=== FILE: README.md ===
# Break It Down: step generator text pipeline

Break It Down is a task tracker that can expand a task into exactly three
steps. The steps come from a small web service with one endpoint,
`POST /generate-steps`. That service asks a language model for a numbered
list. If it gets no usable list, it falls back to a fixed template.

This project models the pure text pipeline of that service in Dafny:

- **Task normaliser** (`Normalize.NormalizeTask`). It strips the task,
  replaces each whitespace run by one space, and keeps at most 200
  characters.
- **Reply parser** (`Parse.ParseSteps`). It splits the model's reply into
  lines and drops blank lines. It removes at most one leading list marker
  per line (`1.`, `2)`, `3 -`, `- `, `* `). Lines left empty are dropped.
  The loop as the source writes it is `Parse.ParseStepsLoop`.
- **Fallback template** (`Fallback.FallbackSteps`). Three fixed steps; the
  first one names the normalised task.
- **Selection rule and handler** (`Service.Generate`,
  `Service.GenerateStepsEndpoint`). With no client, the result is the
  fallback. With three or more parsed steps, it is the first three. Otherwise
  it is the fallback. The handler checks the request length, rejects a blank
  task with 400, and otherwise answers with exactly three steps, or with 500
  when the request raises.

Strings are `seq<char>`. Whitespace is the set Python's `str.isspace()`
accepts (`Chars.IsWhitespace`). That is also the set `\s` matches, and the set
`str.strip()` removes. Line breaks are the ones `str.splitlines()` recognises
(`Chars.IsLineBreak`), with `"\r\n"` counted as one. `Text.Words` is
Python's `str.split()` and `Text.Join` is `str.join()`; they serve as an
independent reference for the normaliser. The two regular
expressions are written out by hand. `Normalize.Collapse` is
`re.sub(r"\s+", " ", ·)`. `Parse.MarkerLength` is the match length of
`^(\d+[\).\s-]+|[-*]\s+)`, and it is proved to be the longest prefix of the
line that the pattern's language contains.

The language model is not modelled. What the chat-completion request yields
is an input of type `Service.Upstream`:

- `NoClient`: no API key is configured.
- `CallRaised`: something in main.py:79-101 raised an exception. That covers
  the request itself, an `OPENAI_TEMPERATURE` that is not a float (raised
  before any request), and a reply with an empty `choices` list.
- `Replied(content)`: the reply arrived; `content` is the message text, or
  `None` when it is null.

The source does not catch exceptions from the request. A failing call
therefore reaches the web framework as an unhandled exception, which answers
500.

Modules: `Wrappers` (Option), `Chars` (character classes), `Text` (strip,
run counting, filtering), `Normalize`, `Lines` (`splitlines`), `Parse`,
`Fallback`, `Service`.

## Model

| member | source | states |
|---|---|---|
| Text.Strip | break-it-down-ai/main.py:51 | `str.strip()`: the result is the slice of the input left after cutting only whitespace from both ends. Only whitespace lies outside it and it has no whitespace at either end, so the cut is maximal. It is empty exactly when the input is all whitespace. |
| Text.StripKeepsWords | break-it-down-ai/main.py:51 | Stripping keeps the words: `task.strip().split()` equals `task.split()`. |
| Text.WordsAreVisibleRuns | break-it-down-ai/main.py:51 | The reference `str.split()`: every word is a non-empty run of non-whitespace characters, and the words concatenated are exactly the input's non-whitespace characters, in order. |
| Text.StripKeepsVisible | break-it-down-ai/main.py:51 | Stripping keeps every non-whitespace character, in order. |
| Normalize.Collapse | break-it-down-ai/main.py:51 | `re.sub(r"\s+", " ", s)`: every whitespace character left is a plain space, and no two whitespace characters are adjacent. The result is no longer than the input and is empty only for the empty input. It starts and ends with whitespace exactly when the input does. |
| Normalize.CollapseKeepsVisible | break-it-down-ai/main.py:51 | Collapsing keeps every non-whitespace character, in order, so only whitespace changes. |
| Normalize.CollapseWordThen | break-it-down-ai/main.py:51 | A run of non-whitespace characters passes through the substitution unchanged, whatever follows it. |
| Normalize.CollapseKeepsWords | break-it-down-ai/main.py:51 | The substitution keeps the words: `re.sub(r"\s+", " ", s).split()` equals `s.split()`. |
| Normalize.CollapseOfSingleSpaced | break-it-down-ai/main.py:51 | A string whose whitespace is already single plain spaces is unchanged by the substitution. |
| Normalize.NormalizeTask | break-it-down-ai/main.py:50-52 | The normalised task has at most 200 characters and is no longer than the input. It never starts with whitespace, and its whitespace is single plain spaces. It is empty exactly when the input is all whitespace. When the input has at most 200 characters it does not end with whitespace either. |
| Normalize.SpacedIsJoinedWords | break-it-down-ai/main.py:50-52 | A string with no whitespace at either end whose whitespace is single plain spaces is `" ".join` of its own words. |
| Normalize.NormalizeIsJoinedWords | break-it-down-ai/main.py:50-52 | The normaliser equals the independent definition `" ".join(task.split())[:200]`: the task's words joined by single spaces, cut to 200 characters. |
| Normalize.NormalizeKeepsVisiblePrefix | break-it-down-ai/main.py:50-52 | The normalised task's non-whitespace characters are a prefix of the input's. They are all of them when the input has at most 200 characters. |
| Normalize.NormalizeIdempotentWithinLimit | break-it-down-ai/main.py:50-52 | For inputs of at most 200 characters, normalising twice gives the same result as normalising once. |
| Normalize.NormalizeNotIdempotentBeyondLimit | break-it-down-ai/main.py:50-52 | Some longer input is truncated to a string ending in a space. Normalising that string again strips the space, so the normaliser is not idempotent in general. |
| Lines.SplitLines | break-it-down-ai/main.py:56 | `str.splitlines()`: no line contains a line break, and there are no more lines than characters. A non-empty input has at least one line. Which lines it returns, for every input, is fixed by `Lines.SplitLaidLines` together with `Lines.SplitLinesLaid`. |
| Lines.SplitLinesLosesOnlyBreaks | break-it-down-ai/main.py:56 | Joined back together, the lines are exactly the input with its line-break characters removed. |
| Lines.SplitJoinedLines | break-it-down-ai/main.py:56 | Round trip: lines with no line breaks, joined by any one line break (`"\n"`, `"\r"`, `"\r\n"`, `"\x0b"`, `"\x0c"`, `"\x1c"`–`"\x1e"`, `"\x85"`, `"\u2028"`, `"\u2029"`), split back into exactly those lines, provided the last line is not empty. For a string that uses one kind of break throughout, each break character ends a line, and `"\r\n"` ends just one; mixed breaks are covered by `Lines.SplitLaidLines`. |
| Lines.CarriageReturnSplits | break-it-down-ai/main.py:56 | `"a\rb"` splits into the two lines `"a"` and `"b"`, as `str.splitlines()` does; a lone carriage return ends a line. |
| Lines.SplitLaidLines | break-it-down-ai/main.py:56 | Round trip for any mix of breaks: break-free lines, each followed by its own break (`"\r\n"` counts as one, and the last line may have none when it is not empty), split back into exactly those lines. A lone `"\r"` directly before a `"\n"` is excluded, since the two form one `"\r\n"`. |
| Lines.SplitLinesLaid | break-it-down-ai/main.py:56 | Every string is its lines, each followed by its own break (`Lines.LineEnds`, what `splitlines(keepends=True)` keeps), laid out in order. With `Lines.SplitLaidLines` this fixes the lines of every input. |
| Lines.MixedBreaksSplit | break-it-down-ai/main.py:56 | The reply `"1. a\r\n2. b\n3. c"`, which mixes breaks, has the three lines `"1. a"`, `"2. b"`, `"3. c"`. |
| Lines.FinalCarriageReturnDropped | break-it-down-ai/main.py:56 | A final lone `"\r"` starts no empty line: `"a\r"` has the single line `"a"`. |
| Lines.JoinSplitLines | break-it-down-ai/main.py:56 | Round trip: when every line break of a string is `"\n"`, its lines joined by `"\n"` give the string back, less one final `"\n"` if it has one. |
| Parse.MapNonEmpty | break-it-down-ai/main.py:56-62 | Keeping only the non-empty images gives no more results than inputs, and every result is non-empty. |
| Parse.Origins | break-it-down-ai/main.py:56-62 | The comprehension and the loop keep elements in input order: the k-th kept result is the image of the element at the k-th position of a strictly increasing index list. An element is kept exactly when its image is non-empty. |
| Parse.MarkerLength | break-it-down-ai/main.py:59 | The regex removes a prefix of the line that is a list marker, or nothing. When it removes something and text remains, the next character is not whitespace, because both repetitions are greedy. |
| Parse.MarkerLengthIsLongestMarker | break-it-down-ai/main.py:59 | The text the regex removes is the longest prefix of the line that is a list marker. When it removes nothing, no prefix of the line is a marker. |
| Parse.CleanLine | break-it-down-ai/main.py:59 | A cleaned line has no whitespace at either end and is no longer than the line. |
| Parse.CleanStrippedLine | break-it-down-ai/main.py:59 | On a stripped line, the step is exactly the line minus its longest marker prefix. At most one marker goes, it is anchored at the start, and nothing else changes. |
| Parse.UnmarkedLineKept | break-it-down-ai/main.py:59 | A line with no marker prefix is kept as it is, apart from the strip. |
| Parse.MarkerOnlyLineDropped | break-it-down-ai/main.py:59-61 | A line that is nothing but a marker, such as `3.`, cleans to the empty string and is dropped. |
| Parse.OnlyFirstMarkerRemoved | break-it-down-ai/main.py:59 | `1. 2. Buy milk` becomes `2. Buy milk`: a second marker is kept. |
| Parse.NonBlankLines | break-it-down-ai/main.py:56 | The stripped, non-blank lines are non-empty, have no whitespace at either end, and are no more than the raw lines. |
| Parse.ParseSteps | break-it-down-ai/main.py:55-62 | Every parsed step is non-empty and has no whitespace at either end. There are no more steps than non-blank lines. |
| Parse.ParsedStepsAreLineSuffixes | break-it-down-ai/main.py:55-62 | Each step is the rest of one non-blank reply line after its marker. The steps come from strictly increasing line positions, so reply order is preserved. |
| Parse.ParseStepsLoop | break-it-down-ai/main.py:57-62 | The loop that cleans each line and appends the non-empty results computes exactly the parser's result. |
| Fallback.FallbackSteps | break-it-down-ai/main.py:65-71 | The fallback has exactly three steps. Each is non-empty with no whitespace at either end, and the first starts with the clarify prefix. |
| Fallback.FallbackNamesTask | break-it-down-ai/main.py:66-68 | Removing the prefix and the final full stop from the first fallback step gives back exactly the normalised task. |
| Fallback.FallbackDependsOnlyOnNormalizedTask | break-it-down-ai/main.py:65-71 | The second and third steps are the same for every task. Two tasks get the same fallback exactly when they normalise to the same string. |
| Service.ReplyText | break-it-down-ai/main.py:101 | `content or ""`: present content is the reply text. Null content reads as the empty string, which parses to no steps. |
| Service.Generate | break-it-down-ai/main.py:74-105 | The generator raises exactly when something in main.py:79-101 raises (`CallRaised`: the request, a non-float `OPENAI_TEMPERATURE`, an empty `choices` list). Otherwise it returns exactly three steps, each non-empty with no whitespace at either end. |
| Service.GenerateSelection | break-it-down-ai/main.py:74-105 | With no client the result is the fallback. When the reply parses to three or more steps, the result is a prefix of the parsed steps, in their order. With fewer, the result is the fallback. |
| Service.GenerateStepsEndpoint | break-it-down-ai/main.py:108-118 | 422 exactly when the task length is outside 1..200. 400 "Task is required." exactly when the task is all whitespace. 500 exactly when the request raises. 200 otherwise, with exactly three non-empty, stripped steps. Rejected always means 400, so the "step generation failed" 500 branch is unreachable. |
| Service.EndpointFallbackNamesTask | break-it-down-ai/main.py:108-118 | With no client, a valid task gets 200. The first step names the task exactly as the handler normalised it, although the template normalises it a second time. |

## Left out

- Application construction, the CORS middleware and `.env` loading
  (main.py:14-32): framework and configuration plumbing.
- Client creation and the chat-completion request (main.py:43-47, 79-99):
  a network call to a third-party model. Its outcome is the `Upstream`
  input. The prompt text, model name and temperature are not modelled;
  the temperature is also a float read from the environment.
- `asyncio.to_thread` (main.py:114) is modelled as a plain call.
- Request validation (main.py:36) is modelled only by its outcome, a 422
  when the task has fewer than 1 or more than 200 characters. The error body
  the framework writes is not modelled.
- `\d` is modelled as the ASCII digits `0`-`9`. Python also matches every
  other Unicode decimal digit.
- Dafny characters are Unicode scalar values, so Python strings holding
  lone surrogates have no counterpart.
- The response model's serialisation (main.py:39-40) is not modelled.
- Task and step persistence, ownership, the at-most-once decomposition guard
  and the user interface are described for the wider system but are not part
  of this source file, so they are not part of this model.

=== FILE: chars.dfy ===
/**
 Character classes used by the step generator's text pipeline.

 Python's `str.strip()`, `str.isspace()` and the `\s` class of a `str`
 regular expression all use the same whitespace set, written out here.
 `str.splitlines()` breaks lines at a subset of it.
 */
module Chars {

  /** True for exactly the characters Python's `str.isspace()` accepts. */
  predicate IsWhitespace(c: char) {
    || ('\t' <= c <= '\r')                 // tab, line feed, vertical tab, form feed, carriage return
    || ('\U{1C}' <= c <= '\U{1F}')         // file, group, record and unit separators
    || c == ' '
    || c == '\U{85}'                       // next line
    || c == '\U{A0}'                       // no-break space
    || c == '\U{1680}'
    || ('\U{2000}' <= c <= '\U{200A}')
    || c == '\U{2028}' || c == '\U{2029}'  // line and paragraph separators
    || c == '\U{202F}' || c == '\U{205F}' || c == '\U{3000}'
  }

  predicate IsVisible(c: char) {
    !IsWhitespace(c)
  }

  /** The characters at which Python's `str.splitlines()` ends a line. */
  predicate IsLineBreak(c: char) {
    || c == '\n' || c == '\r'
    || c == '\U{0B}' || c == '\U{0C}'
    || ('\U{1C}' <= c <= '\U{1E}')
    || c == '\U{85}'
    || c == '\U{2028}' || c == '\U{2029}'
  }

  predicate NotLineBreak(c: char) {
    !IsLineBreak(c)
  }

  /** The `\d` class, restricted to ASCII digits. */
  predicate IsDigit(c: char) {
    '0' <= c <= '9'
  }

  /** The class `[\).\s-]` that follows the number of a numbered-list marker. */
  predicate IsMarkerPunct(c: char) {
    c == ')' || c == '.' || c == '-' || IsWhitespace(c)
  }

  /** The class `[-*]` that opens a bulleted-list marker. */
  predicate IsBullet(c: char) {
    c == '-' || c == '*'
  }
}

=== FILE: fallback.dfy ===
/** The fixed three-step template used whenever the model's steps are not available. */
module Fallback {
  import opened Text
  import opened Normalize

  // The three fixed texts of the template. Each is written as its first word
  // followed by the rest of the sentence; the two pieces joined are the text
  // word for word.

  /** The text in front of the task in the first step. */
  const ClarifyPrefix: string := "Clarify" + " the desired outcome for: "
  /** The second step. */
  const GatherStep: string := "List" + " the key resources or info you need to start."
  /** The third step. */
  const ActStep: string := "Complete" + " the first small action and note the next step."

  /** The fixed steps have no whitespace at either end. */
  lemma FixedStepsStripped()
    ensures GatherStep != [] && Stripped(GatherStep)
    ensures ActStep != [] && Stripped(ActStep)
  {
  }

  /** The first template step has no whitespace at either end, whatever it names. */
  lemma FirstStepStripped(subject: string)
    ensures var first := ClarifyPrefix + subject + ".";
            ClarifyPrefix < first && Stripped(first)
  {
    var first := ClarifyPrefix + subject + ".";
    assert first[0] == ClarifyPrefix[0] == 'C';
    assert first[|first| - 1] == '.';
    assert first[..|ClarifyPrefix|] == ClarifyPrefix;
  }

  /** `_fallback_steps`: three ordered steps, the first naming the normalised task. */
  function FallbackSteps(task: string): (steps: seq<string>)
    ensures |steps| == 3
    ensures forall k :: 0 <= k < 3 ==> steps[k] != [] && Stripped(steps[k])
    ensures ClarifyPrefix < steps[0]
  {
    FixedStepsStripped();
    FirstStepStripped(NormalizeTask(task));
    [ClarifyPrefix + NormalizeTask(task) + ".", GatherStep, ActStep]
  }

  /** The task a first fallback step names: what lies between the template's
      prefix and its closing full stop. */
  function Subject(first: string): string
    requires |ClarifyPrefix| < |first|
  {
    first[|ClarifyPrefix|..|first| - 1]
  }

  /** The first fallback step names exactly the normalised task. */
  lemma FallbackNamesTask(task: string)
    ensures Subject(FallbackSteps(task)[0]) == NormalizeTask(task)
  {
    var first := ClarifyPrefix + NormalizeTask(task) + ".";
    assert first[|ClarifyPrefix|..|first| - 1] == NormalizeTask(task);
  }

  /** The second and third fallback steps do not depend on the task, and two
      tasks get the same fallback exactly when they normalise alike. */
  lemma FallbackDependsOnlyOnNormalizedTask(task1: string, task2: string)
    ensures FallbackSteps(task1)[1..] == FallbackSteps(task2)[1..]
    ensures FallbackSteps(task1) == FallbackSteps(task2) <==> NormalizeTask(task1) == NormalizeTask(task2)
  {
    FallbackNamesTask(task1);
    FallbackNamesTask(task2);
  }
}

=== FILE: lines.dfy ===
/** Python's `str.splitlines()` without `keepends`. */
module Lines {
  import opened Chars
  import opened Text

  predicate NoLineBreaks(s: string) {
    forall i :: 0 <= i < |s| ==> NotLineBreak(s[i])
  }

  /** Where the line break after the first line begins, and where the next
      line begins: `"\r\n"` counts as one break. */
  function NextLineStart(s: string, i: nat): (next: nat)
    requires i < |s|
    ensures i < next <= |s|
  {
    if s[i] == '\r' && i + 1 < |s| && s[i + 1] == '\n' then i + 2 else i + 1
  }

  /** The lines of `s`, without their line breaks. A final line break does not
      start an empty last line, and the empty string has no lines. */
  function SplitLines(s: string): (lines: seq<string>)
    ensures forall k :: 0 <= k < |lines| ==> NoLineBreaks(lines[k])
    ensures |lines| <= |s|
    ensures s != [] ==> lines != []
    decreases |s|
  {
    if s == [] then []
    else
      var i := LeadingCount(NotLineBreak, s);
      if i == |s| then [s]
      else [s[..i]] + SplitLines(s[NextLineStart(s, i)..])
  }

  function Flatten(lines: seq<string>): string {
    if lines == [] then [] else lines[0] + Flatten(lines[1..])
  }

  /** The characters between a line and the next one are all line breaks. */
  lemma BreakIsDropped(s: string, i: nat)
    requires i < |s| && IsLineBreak(s[i])
    ensures Keep(NotLineBreak, s[i..NextLineStart(s, i)]) == []
  {
    var next := NextLineStart(s, i);
    forall j | 0 <= j < |s[i..next]| ensures !NotLineBreak(s[i..next][j]) {
      assert s[i..next][j] == s[i + j];
    }
    KeepNone(NotLineBreak, s[i..next]);
  }

  lemma FlattenCons(line: string, lines: seq<string>)
    ensures Flatten([line] + lines) == line + Flatten(lines)
  {
    assert ([line] + lines)[1..] == lines;
  }

  /** The first line of `s` survives the filter unchanged. */
  lemma KeepLeadingLine(s: string, i: nat)
    requires i == LeadingCount(NotLineBreak, s)
    ensures Keep(NotLineBreak, s) == s[..i] + Keep(NotLineBreak, s[i..])
  {
    assert s == s[..i] + s[i..];
    KeepAppend(NotLineBreak, s[..i], s[i..]);
    KeepAll(NotLineBreak, s[..i]);
  }

  /** The break after the first line does not survive the filter. */
  lemma KeepSkipsBreak(s: string, i: nat)
    requires i < |s| && IsLineBreak(s[i])
    ensures Keep(NotLineBreak, s[i..]) == Keep(NotLineBreak, s[NextLineStart(s, i)..])
  {
    var next := NextLineStart(s, i);
    assert s[i..] == s[i..next] + s[next..];
    KeepAppend(NotLineBreak, s[i..next], s[next..]);
    BreakIsDropped(s, i);
  }

  /** Splitting loses the line breaks and nothing else: joined back together,
      the lines are the input with its line-break characters removed. */
  lemma {:induction false} SplitLinesLosesOnlyBreaks(s: string)
    ensures Flatten(SplitLines(s)) == Keep(NotLineBreak, s)
    decreases |s|
  {
    if s != [] {
      var i := LeadingCount(NotLineBreak, s);
      if i == |s| {
        KeepAll(NotLineBreak, s);
        FlattenCons(s, []);
      } else {
        var rest := s[NextLineStart(s, i)..];
        KeepLeadingLine(s, i);
        KeepSkipsBreak(s, i);
        SplitLinesLosesOnlyBreaks(rest);
        FlattenCons(s[..i], SplitLines(rest));
      }
    }
  }

  /** `"\n".join(lines)`. */
  function JoinLines(lines: seq<string>): string {
    Join(lines, "\n")
  }

  /** A separator `splitlines` reads as one line break: a single break
      character, or `"\r\n"`. */
  predicate IsLineSeparator(sep: string) {
    (|sep| == 1 && IsLineBreak(sep[0])) || sep == "\r\n"
  }

  /** Break-free lines whose last one is not empty, joined by any separator,
      do not begin with `"\n"` unless that separator is `"\n"` itself. */
  lemma JoinedLinesStart(lines: seq<string>, sep: string)
    requires IsLineSeparator(sep) && sep != "\n" && lines != []
    requires forall k :: 0 <= k < |lines| ==> NoLineBreaks(lines[k])
    requires lines[|lines| - 1] != []
    ensures Join(lines, sep) != [] && Join(lines, sep)[0] != '\n'
  {
    if |lines| > 1 {
      JoinCons(lines[0], lines[1..], sep);
      if lines[0] == [] {
        assert Join(lines, sep)[0] == sep[0];
      } else {
        assert Join(lines, sep)[0] == lines[0][0];
      }
    }
  }

  /** After the first line comes exactly one break: the separator. */
  lemma SeparatorIsOneBreak(first: string, sep: string, t: string)
    requires IsLineSeparator(sep) && NoLineBreaks(first)
    requires sep != "\r" || t == [] || t[0] != '\n'
    ensures var s := first + sep + t;
            LeadingCount(NotLineBreak, s) == |first|
            && NextLineStart(s, |first|) == |first| + |sep|
            && s[..|first|] == first && s[|first| + |sep|..] == t
  {
    var s := first + sep + t;
    assert s[|first|] == sep[0];
    assert forall i :: 0 <= i < |first| ==> s[i] == first[i];
    LeadingCountExact(NotLineBreak, s, |first|);
    if |sep| == 1 && |first| + 1 < |s| {
      assert s[|first| + 1] == t[0];
    }
    assert s[..|first|] == first;
    assert s[|first| + |sep|..] == t;
  }

  /** Lines without breaks, joined by any one line break (`"\n"`, `"\r"`,
      `"\r\n"`, `"\x0b"`, …), split back into the same lines, unless the
      last one is empty: a final break starts no line. */
  lemma {:induction false} SplitJoinedLines(lines: seq<string>, sep: string)
    requires IsLineSeparator(sep)
    requires forall k :: 0 <= k < |lines| ==> NoLineBreaks(lines[k])
    requires lines == [] || lines[|lines| - 1] != []
    ensures SplitLines(Join(lines, sep)) == lines
    decreases |lines|
  {
    if |lines| == 1 {
      var s := lines[0];
      LeadingCountExact(NotLineBreak, s, |s|);
    } else if |lines| > 1 {
      var first, rest := lines[0], lines[1..];
      JoinCons(first, rest, sep);
      if sep != "\n" {
        JoinedLinesStart(rest, sep);
      }
      SeparatorIsOneBreak(first, sep, Join(rest, sep));
      SplitJoinedLines(rest, sep);
    }
  }

  /** `"a\rb"` is two lines, as it is for `str.splitlines()`. */
  lemma CarriageReturnSplits()
    ensures SplitLines("a\rb") == ["a", "b"]
  {
    SplitJoinedLines(["a", "b"], "\r");
    assert Join(["a", "b"], "\r") == "a\rb";
  }

  /** Each line followed by its own break: `"".join(l + e for l, e in
      zip(lines, ends))`, the inverse of `splitlines(keepends=True)`. */
  function Lay(lines: seq<string>, ends: seq<string>): string
    requires |ends| == |lines|
  {
    if lines == [] then [] else lines[0] + ends[0] + Lay(lines[1..], ends[1..])
  }

  /** `lines` and `ends` describe a string line by line: the lines have no
      breaks, every end is one break (`"\r\n"` included), except that the
      last line may go without one when it is not empty, and no lone `"\r"`
      end is directly followed by an empty line ended by `"\n"` (the two
      would be one `"\r\n"`). */
  predicate Laid(lines: seq<string>, ends: seq<string>)
    decreases |lines|
  {
    |ends| == |lines|
    && (lines == []
        || (NoLineBreaks(lines[0])
            && if |lines| == 1 then IsLineSeparator(ends[0]) || (ends[0] == [] && lines[0] != [])
               else IsLineSeparator(ends[0])
                    && !(ends[0] == "\r" && lines[1] == [] && ends[1] == "\n")
                    && Laid(lines[1..], ends[1..])))
  }

  /** A laid-out string with more than one line does not begin with a
      `"\n"` that a preceding lone `"\r"` could swallow. */
  lemma LayStart(lines: seq<string>, ends: seq<string>)
    requires Laid(lines, ends) && lines != []
    ensures Lay(lines, ends) != []
    ensures Lay(lines, ends)[0] == '\n' ==> lines[0] == [] && ends[0] == "\n"
  {
    var s := Lay(lines, ends);
    if lines[0] != [] {
      assert s[0] == lines[0][0];
    } else {
      assert s[0] == ends[0][0];
    }
  }

  /** `splitlines` recovers the lines of any string laid out line by line,
      whatever mix of breaks ends them. Every string is laid out this way
      (`SplitLinesLaid`), so this fixes the lines of every string. */
  lemma {:induction false} SplitLaidLines(lines: seq<string>, ends: seq<string>)
    requires Laid(lines, ends)
    ensures SplitLines(Lay(lines, ends)) == lines
    decreases |lines|
  {
    if lines != [] {
      var first, e := lines[0], ends[0];
      var t := Lay(lines[1..], ends[1..]);
      assert Lay(lines, ends) == first + e + t;
      if e == [] {
        assert |lines| == 1 && t == [];
        assert first + e + t == first;
        LeadingCountExact(NotLineBreak, first, |first|);
      } else {
        if |lines| > 1 {
          LayStart(lines[1..], ends[1..]);
        }
        SeparatorIsOneBreak(first, e, t);
        SplitLaidLines(lines[1..], ends[1..]);
      }
    }
  }

  /** The break that ends each line of `s`, `""` for a last line with none:
      what `splitlines(keepends=True)` keeps and `splitlines()` drops. */
  function LineEnds(s: string): (ends: seq<string>)
    ensures |ends| == |SplitLines(s)|
    decreases |s|
  {
    if s == [] then []
    else
      var i := LeadingCount(NotLineBreak, s);
      if i == |s| then [[]]
      else [s[i..NextLineStart(s, i)]] + LineEnds(s[NextLineStart(s, i)..])
  }

  /** The first line of `s` and the break after it. */
  lemma FirstLineLaid(s: string, i: nat)
    requires i < |s| && i == LeadingCount(NotLineBreak, s)
    ensures NoLineBreaks(s[..i]) && IsLineSeparator(s[i..NextLineStart(s, i)])
    ensures var next := NextLineStart(s, i);
            s[i..next] == "\r" && next < |s| ==> s[next] != '\n'
  {
    var next := NextLineStart(s, i);
    if next == i + 2 {
      assert s[i..next] == "\r\n";
    } else {
      assert s[i..next] == [s[i]];
    }
  }

  /** A line that is empty and ended by `"\n"` starts with that `"\n"`. */
  lemma EmptyLineStart(s: string)
    requires s != [] && SplitLines(s)[0] == [] && LineEnds(s)[0] == "\n"
    ensures s[0] == '\n'
  {
    var i := LeadingCount(NotLineBreak, s);
    if i < |s| {
      assert s[..i] == [];
      assert s[i..NextLineStart(s, i)] == "\n";
    }
  }

  /** Every string is laid out line by line: its lines, each followed by its
      own break, give it back. */
  lemma {:induction false} SplitLinesLaid(s: string)
    ensures Laid(SplitLines(s), LineEnds(s))
    ensures Lay(SplitLines(s), LineEnds(s)) == s
    decreases |s|
  {
    if s != [] {
      var i := LeadingCount(NotLineBreak, s);
      if i == |s| {
        assert SplitLines(s) == [s] && LineEnds(s) == [[]];
        assert Lay([s], [[]]) == s + [] + [];
      } else {
        var next := NextLineStart(s, i);
        var rest := s[next..];
        var lines, ends := SplitLines(s), LineEnds(s);
        assert lines == [s[..i]] + SplitLines(rest);
        assert ends == [s[i..next]] + LineEnds(rest);
        assert lines[1..] == SplitLines(rest) && ends[1..] == LineEnds(rest);
        FirstLineLaid(s, i);
        SplitLinesLaid(rest);
        if rest != [] && lines[1] == [] && ends[1] == "\n" {
          EmptyLineStart(rest);
        }
        SplitThree(s, i, next);
      }
    }
  }

  /** A mixed reply: `"1. a\r\n2. b\n3. c"` has three lines. */
  lemma MixedBreaksSplit()
    ensures SplitLines("1. a\r\n2. b\n3. c") == ["1. a", "2. b", "3. c"]
  {
    SplitLaidLines(["1. a", "2. b", "3. c"], ["\r\n", "\n", ""]);
    assert Lay(["1. a", "2. b", "3. c"], ["\r\n", "\n", ""]) == "1. a\r\n2. b\n3. c";
  }

  /** A final lone `"\r"` starts no empty line. */
  lemma FinalCarriageReturnDropped()
    ensures SplitLines("a\r") == ["a"]
  {
    SplitLaidLines(["a"], ["\r"]);
    assert Lay(["a"], ["\r"]) == "a\r";
  }

  /** Every line break of `s` is a plain `"\n"`. */
  predicate OnlyNewlines(s: string) {
    forall i :: 0 <= i < |s| && IsLineBreak(s[i]) ==> s[i] == '\n'
  }

  lemma OnlyNewlinesSuffix(s: string, k: nat)
    requires OnlyNewlines(s) && k <= |s|
    ensures OnlyNewlines(s[k..])
  {
    forall j | 0 <= j < |s[k..]| && IsLineBreak(s[k..][j]) ensures s[k..][j] == '\n' {
      assert s[k..][j] == s[k + j];
    }
  }

  /** `s` without its final character, when that character is `"\n"`. */
  function DropFinalNewline(s: string): (r: string)
    ensures r == s || (s != [] && s[|s| - 1] == '\n' && r == s[..|s| - 1])
  {
    if s != [] && s[|s| - 1] == '\n' then s[..|s| - 1] else s
  }

  lemma DropFinalNewlineAfter(a: string, r: string)
    requires r != []
    ensures DropFinalNewline(a + r) == a + DropFinalNewline(r)
  {
    var s := a + r;
    assert s[|s| - 1] == r[|r| - 1];
    assert s[..|s| - 1] == a + r[..|r| - 1];
  }

  /** One line, a `"\n"`, and a non-empty rest whose lines join back. */
  lemma JoinSplitLinesStep(s: string, i: nat)
    requires i + 1 < |s| && i == LeadingCount(NotLineBreak, s) && s[i] == '\n'
    requires JoinLines(SplitLines(s[i + 1..])) == DropFinalNewline(s[i + 1..])
    ensures JoinLines(SplitLines(s)) == DropFinalNewline(s)
  {
    var rest := s[i + 1..];
    assert NextLineStart(s, i) == i + 1;
    assert SplitLines(s) == [s[..i]] + SplitLines(rest);
    JoinCons(s[..i], SplitLines(rest), "\n");
    SplitThree(s, i, i + 1);
    assert s[i..i + 1] == "\n";
    DropFinalNewlineAfter(s[..i] + "\n", rest);
  }

  /** A string whose breaks are all `"\n"` is its lines joined by `"\n"`,
      apart from a final `"\n"`, which `splitlines` drops. */
  lemma {:induction false} JoinSplitLines(s: string)
    requires OnlyNewlines(s)
    ensures JoinLines(SplitLines(s)) == DropFinalNewline(s)
    decreases |s|
  {
    if s != [] {
      var i := LeadingCount(NotLineBreak, s);
      if i < |s| {
        assert s[i] == '\n';
        if i + 1 == |s| {
          assert NextLineStart(s, i) == |s|;
          assert SplitLines(s) == [s[..i]];
        } else {
          OnlyNewlinesSuffix(s, i + 1);
          JoinSplitLines(s[i + 1..]);
          JoinSplitLinesStep(s, i);
        }
      }
    }
  }
}

=== FILE: normalize.dfy ===
/**
 The task normaliser: strip the task, replace every whitespace run by one
 space, and keep at most the first 200 characters.
 */
module Normalize {
  import opened Chars
  import opened Text

  /** Longest task the service accepts and the most the normaliser keeps. */
  const MaxTaskLength: nat := 200

  /** Every whitespace character of `s` is a plain space, and no two
      whitespace characters are adjacent. */
  predicate SingleSpaced(s: string) {
    && (forall i :: 0 <= i < |s| && IsWhitespace(s[i]) ==> s[i] == ' ')
    && (forall i :: 0 <= i < |s| - 1 ==> IsVisible(s[i]) || IsVisible(s[i + 1]))
  }

  predicate StartsWithWhitespace(s: string) {
    s != [] && IsWhitespace(s[0])
  }

  predicate EndsWithWhitespace(s: string) {
    s != [] && IsWhitespace(s[|s| - 1])
  }

  /** `re.sub(r"\s+", " ", s)`: each maximal whitespace run becomes one space. */
  function Collapse(s: string): (r: string)
    ensures |r| <= |s|
    ensures r == [] <==> s == []
    ensures StartsWithWhitespace(r) <==> StartsWithWhitespace(s)
    ensures EndsWithWhitespace(r) <==> EndsWithWhitespace(s)
    ensures SingleSpaced(r)
    decreases |s|
  {
    if s == [] then []
    else if IsWhitespace(s[0]) then
      var n := LeadingCount(IsWhitespace, s);
      [' '] + Collapse(s[n..])
    else
      [s[0]] + Collapse(s[1..])
  }

  /** `_normalize_task`: strip, collapse whitespace runs, truncate to 200. */
  function NormalizeTask(task: string): (r: string)
    ensures |r| <= MaxTaskLength && |r| <= |task|
    ensures r == [] <==> AllWhitespace(task)
    ensures r != [] ==> IsVisible(r[0])
    ensures SingleSpaced(r)
    ensures |task| <= MaxTaskLength ==> Stripped(r)
  {
    var cleaned := Collapse(Strip(task));
    if |cleaned| <= MaxTaskLength then cleaned else cleaned[..MaxTaskLength]
  }

  /** Collapsing changes only whitespace: the visible characters are kept, in order. */
  lemma {:induction false} CollapseKeepsVisible(s: string)
    ensures Visible(Collapse(s)) == Visible(s)
    decreases |s|
  {
    if s == [] {
    } else if IsWhitespace(s[0]) {
      var n := LeadingCount(IsWhitespace, s);
      assert s == s[..n] + s[n..];
      KeepAppend(IsVisible, s[..n], s[n..]);
      KeepNone(IsVisible, s[..n]);
      KeepAppend(IsVisible, [' '], Collapse(s[n..]));
      CollapseKeepsVisible(s[n..]);
    } else {
      assert s == [s[0]] + s[1..];
      KeepAppend(IsVisible, [s[0]], s[1..]);
      KeepAppend(IsVisible, [s[0]], Collapse(s[1..]));
      CollapseKeepsVisible(s[1..]);
    }
  }

  /** Dropping characters from the front keeps a string single-spaced. */
  lemma SingleSpacedSuffix(s: string, k: nat)
    requires SingleSpaced(s) && k <= |s|
    ensures SingleSpaced(s[k..])
  {
    var t := s[k..];
    forall i | 0 <= i < |t| && IsWhitespace(t[i]) ensures t[i] == ' ' {
      assert t[i] == s[k + i];
    }
    forall i | 0 <= i < |t| - 1 ensures IsVisible(t[i]) || IsVisible(t[i + 1]) {
      assert t[i] == s[k + i] && t[i + 1] == s[k + i + 1];
    }
  }

  /** A character that is not part of a longer whitespace run is replaced by
      itself, or by the space it already is. */
  lemma CollapseSingleStep(s: string)
    requires s != []
    requires IsWhitespace(s[0]) ==> s[0] == ' ' && (1 < |s| ==> IsVisible(s[1]))
    ensures Collapse(s) == [s[0]] + Collapse(s[1..])
  {
    if IsWhitespace(s[0]) {
      LeadingCountExact(IsWhitespace, s, 1);
    }
  }

  /** A string that is already single-spaced is left as it is. */
  lemma {:induction false} CollapseOfSingleSpaced(s: string)
    requires SingleSpaced(s)
    ensures Collapse(s) == s
    decreases |s|
  {
    if s != [] {
      SingleSpacedSuffix(s, 1);
      CollapseOfSingleSpaced(s[1..]);
      assert IsWhitespace(s[0]) ==> s[0] == ' ' && (1 < |s| ==> IsVisible(s[1]));
      CollapseSingleStep(s);
      assert s == [s[0]] + s[1..];
    }
  }

  /** The normalised task shows a prefix of what the raw task shows, and all of
      it when the raw task is within the length limit. */
  lemma NormalizeKeepsVisiblePrefix(task: string)
    ensures var v := Visible(NormalizeTask(task));
            v <= Visible(task) && (|task| <= MaxTaskLength ==> v == Visible(task))
  {
    var cleaned := Collapse(Strip(task));
    StripKeepsVisible(task);
    CollapseKeepsVisible(Strip(task));
    if |cleaned| > MaxTaskLength {
      assert cleaned == cleaned[..MaxTaskLength] + cleaned[MaxTaskLength..];
      KeepAppend(IsVisible, cleaned[..MaxTaskLength], cleaned[MaxTaskLength..]);
    }
  }

  /** Within the length the request model admits, normalising twice is the
      same as normalising once. */
  lemma NormalizeIdempotentWithinLimit(task: string)
    requires |task| <= MaxTaskLength
    ensures NormalizeTask(NormalizeTask(task)) == NormalizeTask(task)
  {
    var r := NormalizeTask(task);
    StripOfStripped(r);
    CollapseOfSingleSpaced(r);
  }

  /** Truncation can leave a trailing space, and then a second normalisation
      strips it: the normaliser is not idempotent in general. */
  lemma NormalizeNotIdempotentBeyondLimit()
    ensures exists task :: |task| > MaxTaskLength
                           && NormalizeTask(NormalizeTask(task)) != NormalizeTask(task)
  {
    var task := seq(MaxTaskLength - 1, _ => 'a') + " b";
    assert Stripped(task);
    StripOfStripped(task);
    assert SingleSpaced(task);
    CollapseOfSingleSpaced(task);
    var r := NormalizeTask(task);
    assert r == task[..MaxTaskLength];
    assert r[|r| - 1] == ' ';
    var r2 := NormalizeTask(r);
    assert |r2| < |r|;
  }

  /** A non-whitespace character passes through the substitution as it is. */
  lemma CollapseCons(c: char, x: string)
    requires IsVisible(c)
    ensures Collapse([c] + x) == [c] + Collapse(x)
  {
    assert ([c] + x)[1..] == x;
  }

  /** A run of non-whitespace characters passes through the substitution as it is. */
  lemma {:induction false} CollapseWordThen(v: string, x: string)
    requires AllVisible(v)
    ensures Collapse(v + x) == v + Collapse(x)
    decreases |v|
  {
    if v == [] {
      assert v + x == x;
    } else {
      var c, w := v[0], v[1..];
      assert v + x == [c] + (w + x) && v == [c] + w;
      assert AllVisible(w) by {
        forall i | 0 <= i < |w| ensures IsVisible(w[i]) {
          assert w[i] == v[i + 1];
        }
      }
      CollapseCons(c, w + x);
      CollapseWordThen(w, x);
      AppendAssoc([c], w, Collapse(x));
    }
  }

  /** Collapsing whitespace runs keeps the words: `str.split()` sees no change. */
  lemma {:induction false} CollapseKeepsWords(s: string)
    ensures Words(Collapse(s)) == Words(s)
    decreases |s|
  {
    if s == [] {
    } else if IsWhitespace(s[0]) {
      var n := LeadingCount(IsWhitespace, s);
      var c := Collapse(s[n..]);
      assert ([' '] + c)[1..] == c;
      WordsSkipWhitespace(s, n);
      CollapseKeepsWords(s[n..]);
    } else {
      var w := LeadingCount(IsVisible, s);
      var v := s[..w];
      assert s == v + s[w..];
      CollapseWordThen(v, s[w..]);
      var c := Collapse(s[w..]);
      WordsOfWordThen(v, c);
      CollapseKeepsWords(s[w..]);
    }
  }

  /** One word, one space, then a string that is its own words joined by
      spaces: the whole is its own words joined by spaces. */
  lemma JoinedWordsStep(x: string, w: nat)
    requires w + 1 < |x| && IsVisible(x[0]) && w == LeadingCount(IsVisible, x) && x[w] == ' '
    requires Words(x[w + 1..]) != [] && Join(Words(x[w + 1..]), " ") == x[w + 1..]
    ensures Join(Words(x), " ") == x
  {
    var rest := x[w + 1..];
    assert x[w..][0] == ' ' && x[w..][1..] == rest;
    assert Words(x[w..]) == Words(rest);
    assert Words(x) == [x[..w]] + Words(rest);
    JoinCons(x[..w], Words(rest), " ");
    SplitThree(x, w, w + 1);
    assert x[w..w + 1] == " ";
  }

  /** A stripped, single-spaced string is its words joined by single spaces. */
  lemma {:induction false} SpacedIsJoinedWords(x: string)
    requires SingleSpaced(x) && Stripped(x)
    ensures Join(Words(x), " ") == x
    decreases |x|
  {
    if x != [] {
      var w := LeadingCount(IsVisible, x);
      if w == |x| {
        assert x[..w] == x && x[w..] == [];
      } else {
        assert x[w] == ' ' && IsVisible(x[w + 1]);
        var rest := x[w + 1..];
        SingleSpacedSuffix(x, w + 1);
        assert rest[0] == x[w + 1];
        SpacedIsJoinedWords(rest);
        JoinedWordsStep(x, w);
      }
    }
  }

  /** `_normalize_task` is `" ".join(task.split())[:200]`: the task's words
      joined by single spaces, truncated to the length limit. */
  lemma NormalizeIsJoinedWords(task: string)
    ensures var j := Join(Words(task), " ");
            NormalizeTask(task) == if |j| <= MaxTaskLength then j else j[..MaxTaskLength]
  {
    var stripped := Strip(task);
    var cleaned := Collapse(stripped);
    assert Stripped(cleaned);
    SpacedIsJoinedWords(cleaned);
    CollapseKeepsWords(stripped);
    StripKeepsWords(task);
  }
}

=== FILE: parse.dfy ===
/**
 The numbered-list parser: the model's reply is split into lines, blank
 lines are dropped, and one leading list marker is removed from each line.
 */
module Parse {
  import opened Chars
  import opened Text
  import opened Lines

  /** Applies `f` to each element and keeps the non-empty results, in order:
      the shape of both the list comprehension and the loop of the parser. */
  function MapNonEmpty(f: string -> string, xs: seq<string>): (ys: seq<string>)
    ensures |ys| <= |xs|
    ensures forall k :: 0 <= k < |ys| ==> ys[k] != []
    decreases |xs|
  {
    if xs == [] then []
    else
      var y := f(xs[|xs| - 1]);
      MapNonEmpty(f, xs[..|xs| - 1]) + (if y == [] then [] else [y])
  }

  /** The positions in `xs` that `MapNonEmpty(f, xs)` keeps. Kept elements
      stay in their input order, and an element is kept exactly when its
      image is non-empty. */
  function Origins(f: string -> string, xs: seq<string>): (idx: seq<nat>)
    ensures |idx| == |MapNonEmpty(f, xs)|
    ensures forall k :: 0 <= k < |idx| ==> idx[k] < |xs| && MapNonEmpty(f, xs)[k] == f(xs[idx[k]])
    ensures forall k, m :: 0 <= k < m < |idx| ==> idx[k] < idx[m]
    ensures forall j :: 0 <= j < |xs| ==> (f(xs[j]) != [] <==> j in idx)
    decreases |xs|
  {
    if xs == [] then []
    else
      var last := |xs| - 1;
      var init := xs[..last];
      var before := Origins(f, init);
      var y := f(xs[last]);
      assert MapNonEmpty(f, xs) == MapNonEmpty(f, init) + (if y == [] then [] else [y]);
      assert forall j :: 0 <= j < last ==> init[j] == xs[j];
      assert forall k :: 0 <= k < |before| ==> before[k] < last;
      before + (if y == [] then [] else [last])
  }

  /** One more element of the input adds its image, when non-empty, at the end. */
  lemma MapNonEmptyPrefix(f: string -> string, xs: seq<string>, i: nat)
    requires i < |xs|
    ensures MapNonEmpty(f, xs[..i + 1])
         == MapNonEmpty(f, xs[..i]) + (if f(xs[i]) == [] then [] else [f(xs[i])])
  {
    assert xs[..i + 1][..i] == xs[..i];
  }

  /** Every element `MapNonEmpty` returns is the image of some input element. */
  lemma MapNonEmptyKeepsImages(f: string -> string, xs: seq<string>)
    ensures forall k :: 0 <= k < |MapNonEmpty(f, xs)| ==>
              exists j :: 0 <= j < |xs| && MapNonEmpty(f, xs)[k] == f(xs[j])
  {
    var idx := Origins(f, xs);
    forall k | 0 <= k < |MapNonEmpty(f, xs)|
      ensures exists j :: 0 <= j < |xs| && MapNonEmpty(f, xs)[k] == f(xs[j])
    {
      assert MapNonEmpty(f, xs)[k] == f(xs[idx[k]]);
    }
  }

  /** `\d+[\).\s-]+`: one or more digits, then one or more of `)`, `.`,
      whitespace or `-`. */
  predicate IsNumberMarker(m: string) {
    exists d :: 0 < d < |m| && AllDigits(m[..d]) && AllMarkerPunct(m[d..])
  }

  predicate AllDigits(s: string) {
    forall i :: 0 <= i < |s| ==> IsDigit(s[i])
  }

  predicate AllMarkerPunct(s: string) {
    forall i :: 0 <= i < |s| ==> IsMarkerPunct(s[i])
  }

  /** `[-*]\s+`: a dash or an asterisk, then one or more whitespace characters. */
  predicate IsBulletMarker(m: string) {
    |m| >= 2 && IsBullet(m[0]) && AllWhitespace(m[1..])
  }

  /** A whole string matched by the list-marker pattern `\d+[\).\s-]+|[-*]\s+`. */
  predicate IsMarker(m: string) {
    IsNumberMarker(m) || IsBulletMarker(m)
  }

  /** Length of the match of `^(\d+[\).\s-]+|[-*]\s+)` at the start of `line`,
      or 0 when the pattern does not match. Both repetitions are greedy, and the
      first alternative is tried first. */
  function MarkerLength(line: string): (k: nat)
    ensures k <= |line|
    ensures k == 0 || IsMarker(line[..k])
    ensures 0 < k < |line| ==> IsVisible(line[k])
  {
    var d := LeadingCount(IsDigit, line);
    var p := LeadingCount(IsMarkerPunct, line[d..]);
    if d > 0 && p > 0 then
      assert line[..d + p][..d] == line[..d];
      assert line[..d + p][d..] == line[d..][..p];
      assert d + p < |line| ==> line[d + p] == line[d..][p];
      d + p
    else if line != [] && IsBullet(line[0]) && LeadingCount(IsWhitespace, line[1..]) > 0 then
      var w := LeadingCount(IsWhitespace, line[1..]);
      assert line[..1 + w][1..] == line[1..][..w];
      assert 1 + w < |line| ==> line[1 + w] == line[1..][w];
      1 + w
    else 0
  }

  /** The digits and the punctuation of a numbered-marker prefix, read off the line. */
  lemma NumberMarkerShape(line: string, j: nat, e: nat)
    requires j <= |line| && 0 < e < j
    requires AllDigits(line[..j][..e]) && AllMarkerPunct(line[..j][e..])
    ensures forall i :: 0 <= i < e ==> IsDigit(line[i])
    ensures forall i :: 0 <= i < j - e ==> IsMarkerPunct(line[e..][i])
  {
    assert forall i :: 0 <= i < e ==> line[..j][..e][i] == line[i];
    assert forall i :: 0 <= i < j - e ==> line[..j][e..][i] == line[e..][i];
  }

  /** A numbered marker at the start of `line` ends within the greedy match. */
  lemma NumberMarkerPrefix(line: string, j: nat)
    requires j <= |line| && IsNumberMarker(line[..j])
    ensures var d := LeadingCount(IsDigit, line);
            0 < d < j && j <= d + LeadingCount(IsMarkerPunct, line[d..])
  {
    var m := line[..j];
    var e :| 0 < e < |m| && AllDigits(m[..e]) && AllMarkerPunct(m[e..]);
    NumberMarkerShape(line, j, e);
    assert line[e..][0] == line[e];
    LeadingCountExact(IsDigit, line, e);
    LeadingCountAtLeast(IsMarkerPunct, line[e..], j - e);
  }

  /** A bulleted marker at the start of `line` ends within the greedy match. */
  lemma BulletMarkerPrefix(line: string, j: nat)
    requires j <= |line| && IsBulletMarker(line[..j])
    ensures IsBullet(line[0])
    ensures 2 <= j <= 1 + LeadingCount(IsWhitespace, line[1..])
  {
  }

  /** The marker the parser removes is the longest prefix of the line that is
      a marker, and there is none when it removes nothing. */
  lemma MarkerLengthIsLongestMarker(line: string)
    ensures var k := MarkerLength(line);
            && (k == 0 || IsMarker(line[..k]))
            && (forall j :: k < j <= |line| ==> !IsMarker(line[..j]))
  {
    var k := MarkerLength(line);
    forall j | k < j <= |line| ensures !IsMarker(line[..j]) {
      if IsNumberMarker(line[..j]) {
        NumberMarkerPrefix(line, j);
      }
      if IsBulletMarker(line[..j]) {
        BulletMarkerPrefix(line, j);
      }
    }
  }

  /** One line of the parser's loop: the marker is removed, then the rest is stripped. */
  function CleanLine(line: string): (r: string)
    ensures |r| <= |line|
    ensures Stripped(r)
  {
    Strip(line[MarkerLength(line)..])
  }

  /** On a line with no whitespace at either end, as the parser's lines are,
      the step is exactly the rest of the line after its longest marker
      prefix: one marker at most is removed, and nothing else is touched. */
  lemma CleanStrippedLine(line: string)
    requires Stripped(line)
    ensures var k := MarkerLength(line);
            && CleanLine(line) == line[k..]
            && (k == 0 || IsMarker(line[..k]))
            && (forall j :: k < j <= |line| ==> !IsMarker(line[..j]))
  {
    MarkerLengthIsLongestMarker(line);
    var k := MarkerLength(line);
    var rest := line[k..];
    if rest != [] {
      assert rest[|rest| - 1] == line[|line| - 1];
      var d := LeadingCount(IsDigit, line);
      var p := LeadingCount(IsMarkerPunct, line[d..]);
      if d > 0 && p > 0 {
        assert rest[0] == line[d..][p];
      } else if k > 0 {
        assert rest[0] == line[1..][k - 1];
      }
    }
    StripOfStripped(rest);
  }

  /** A line that does not start with a marker is kept, stripped. */
  lemma UnmarkedLineKept(line: string)
    requires forall j :: 0 <= j <= |line| ==> !IsMarker(line[..j])
    ensures CleanLine(line) == Strip(line)
  {
    MarkerLengthIsLongestMarker(line);
  }

  /** A line that is nothing but a marker, such as `3.` or `- `, cleans to
      the empty string and is dropped. */
  lemma MarkerOnlyLineDropped(line: string)
    requires IsMarker(line)
    ensures CleanLine(line) == []
  {
    MarkerLengthIsLongestMarker(line);
    assert line[..|line|] == line;
  }

  /** The marker of `1. 2. Buy milk` is its first three characters. */
  lemma ExampleMarkerLength()
    ensures MarkerLength("1. 2. Buy milk") == 3
  {
    var line := "1. 2. Buy milk";
    assert line[0] == '1' && line[1] == '.';
    LeadingCountExact(IsDigit, line, 1);
    assert line[1..] == ". 2. Buy milk";
    assert line[1..][0] == '.' && line[1..][1] == ' ' && line[1..][2] == '2';
    LeadingCountExact(IsMarkerPunct, line[1..], 2);
  }

  /** Only the first marker goes: a step that itself starts like a marker keeps it. */
  lemma OnlyFirstMarkerRemoved()
    ensures CleanLine("1. 2. Buy milk") == "2. Buy milk"
  {
    var line := "1. 2. Buy milk";
    var rest := "2. Buy milk";
    ExampleMarkerLength();
    assert line[3..] == rest;
    assert rest[0] == '2' && rest[|rest| - 1] == 'k';
    StripOfStripped(rest);
  }

  /** The stripped, non-blank lines of the reply: line 56 of the parser. */
  function NonBlankLines(text: string): (lines: seq<string>)
    ensures |lines| <= |SplitLines(text)|
    ensures forall k :: 0 <= k < |lines| ==> lines[k] != [] && Stripped(lines[k])
  {
    MapNonEmptyKeepsImages(Strip, SplitLines(text));
    MapNonEmpty(Strip, SplitLines(text))
  }

  /** `_parse_steps`: every non-blank line with its marker removed, in order,
      except those that are empty once the marker is gone. */
  function ParseSteps(text: string): (steps: seq<string>)
    ensures |steps| <= |NonBlankLines(text)|
    ensures forall k :: 0 <= k < |steps| ==> steps[k] != [] && Stripped(steps[k])
  {
    MapNonEmptyKeepsImages(CleanLine, NonBlankLines(text));
    MapNonEmpty(CleanLine, NonBlankLines(text))
  }

  /** Each parsed step is the rest of one non-blank reply line after that
      line's marker, and the steps come from strictly later lines in turn. */
  lemma ParsedStepsAreLineSuffixes(text: string)
    ensures var lines := NonBlankLines(text);
            var steps := ParseSteps(text);
            var idx := Origins(CleanLine, lines);
            && |idx| == |steps|
            && (forall k :: 0 <= k < |steps| ==>
                  idx[k] < |lines| && steps[k] == lines[idx[k]][MarkerLength(lines[idx[k]])..])
            && (forall k, m :: 0 <= k < m < |idx| ==> idx[k] < idx[m])
  {
    var lines := NonBlankLines(text);
    var idx := Origins(CleanLine, lines);
    forall k | 0 <= k < |idx|
      ensures ParseSteps(text)[k] == lines[idx[k]][MarkerLength(lines[idx[k]])..]
    {
      CleanStrippedLine(lines[idx[k]]);
    }
  }

  /** The parser's loop as written: each line is cleaned and appended when
      non-empty. */
  method ParseStepsLoop(text: string) returns (steps: seq<string>)
    ensures steps == ParseSteps(text)
  {
    var lines := NonBlankLines(text);
    steps := [];
    for i := 0 to |lines|
      invariant steps == MapNonEmpty(CleanLine, lines[..i])
    {
      var cleaned := CleanLine(lines[i]);
      MapNonEmptyPrefix(CleanLine, lines, i);
      if cleaned != [] {
        steps := steps + [cleaned];
      }
    }
    assert lines[..|lines|] == lines;
  }
}

=== FILE: service.dfy ===
/**
 The step generator's selection rule and the `/generate-steps` endpoint.
 The language model is not modelled: what it answers is an input.
 */
module Service {
  import opened Wrappers
  import opened Text
  import opened Normalize
  import opened Parse
  import opened Fallback

  /** How many steps the service promises. */
  const StepCount: nat := 3

  /** What the chat-completion request yields. `NoClient`: no API key is
      configured, so no request is made. `CallRaised`: anything between reading
      the settings and reading the reply raised (a non-float temperature, the
      request itself, an empty choice list); nothing catches it.
      `Replied`: the first choice's message content, which may be null. */
  datatype Upstream = NoClient | CallRaised | Replied(content: Option<string>)

  /** The result of `_generate_with_openai`: steps, or an exception that
      propagates to the web framework. */
  datatype Generation = Steps(steps: seq<string>) | Raised

  /** The HTTP outcome of `POST /generate-steps`. `Unprocessable` is the
      framework's 422 when the request body fails validation; `Rejected` is an
      `HTTPException` the handler raises; `ServerError` is the framework's 500
      for an exception nobody caught. */
  datatype Response =
    | Ok(steps: seq<string>)
    | Unprocessable
    | Rejected(status: int, detail: string)
    | ServerError

  const TaskRequired: string := "Task is required."
  const GenerationFailed: string := "Step generation failed."

  /** `content or ""`: the reply text the parser sees. Null content reads as
      the empty string, which parses to no steps. */
  function ReplyText(content: Option<string>): (r: string)
    ensures content.Some? ==> r == content.value
    ensures content.None? ==> r == [] && ParseSteps(r) == []
  {
    match content
    case Some(text) => text
    case None => ""
  }

  /** `_generate_with_openai` after the request: the first three parsed steps
      when there are at least three, the fallback template otherwise. */
  function Generate(task: string, upstream: Upstream): (g: Generation)
    ensures g.Raised? <==> upstream.CallRaised?
    ensures g.Steps? ==> |g.steps| == StepCount
    ensures g.Steps? ==> forall k :: 0 <= k < |g.steps| ==> g.steps[k] != [] && Stripped(g.steps[k])
  {
    match upstream
    case NoClient => Steps(FallbackSteps(task))
    case CallRaised => Raised
    case Replied(content) =>
      var parsed := ParseSteps(ReplyText(content));
      if |parsed| < StepCount then Steps(FallbackSteps(task)) else Steps(parsed[..StepCount])
  }

  /** Which steps the generator returns: the model's own first three, in the
      order it listed them, whenever its reply yields three or more; the
      fallback template in every other case that does not raise. */
  lemma GenerateSelection(task: string, upstream: Upstream)
    ensures upstream.NoClient? ==> Generate(task, upstream) == Steps(FallbackSteps(task))
    ensures upstream.Replied? ==>
              var parsed := ParseSteps(ReplyText(upstream.content));
              && (|parsed| >= StepCount ==> Generate(task, upstream).steps <= parsed)
              && (|parsed| < StepCount ==> Generate(task, upstream).steps == FallbackSteps(task))
  {
  }

  /** `generate_steps`, the handler of `POST /generate-steps`, including the
      request model's length bounds on `task`. */
  function GenerateStepsEndpoint(payload: string, upstream: Upstream): (r: Response)
    ensures r.Unprocessable? <==> !(1 <= |payload| <= MaxTaskLength)
    ensures r.Rejected? <==> 1 <= |payload| <= MaxTaskLength && AllWhitespace(payload)
    ensures r.Rejected? ==> r == Rejected(400, TaskRequired)
    ensures r.ServerError? <==> 1 <= |payload| <= MaxTaskLength && !AllWhitespace(payload) && upstream.CallRaised?
    ensures r.Ok? <==> 1 <= |payload| <= MaxTaskLength && !AllWhitespace(payload) && !upstream.CallRaised?
    ensures r.Ok? ==> |r.steps| == StepCount
    ensures r.Ok? ==> forall k :: 0 <= k < |r.steps| ==> r.steps[k] != [] && Stripped(r.steps[k])
  {
    if !(1 <= |payload| <= MaxTaskLength) then Unprocessable
    else
      var task := NormalizeTask(payload);
      if task == [] then Rejected(400, TaskRequired)
      else
        match Generate(task, upstream)
        case Raised => ServerError
        case Steps(steps) =>
          if |steps| != StepCount then Rejected(500, GenerationFailed) else Ok(steps)
  }

  /** When no client is configured, the handler answers with the fallback,
      whose first step names the task exactly as the handler normalised it,
      even though the template normalises it a second time. */
  lemma EndpointFallbackNamesTask(payload: string)
    requires 1 <= |payload| <= MaxTaskLength && !AllWhitespace(payload)
    ensures var r := GenerateStepsEndpoint(payload, NoClient);
            r.Ok? && Subject(r.steps[0]) == NormalizeTask(payload)
  {
    NormalizeIdempotentWithinLimit(payload);
    FallbackNamesTask(NormalizeTask(payload));
  }
}

=== FILE: text.dfy ===
/**
 String primitives shared by the normaliser and the parser: counting runs of a
 character class, Python's `str.strip()`, `str.split()` and `str.join()`, and
 filtering characters.
 */
module Text {
  import opened Chars

  /** Number of leading characters of `s` that satisfy `p`: the length of the
      longest prefix made of `p`-characters. */
  function LeadingCount(p: char -> bool, s: string): (n: nat)
    ensures n <= |s|
    ensures forall i :: 0 <= i < n ==> p(s[i])
    ensures n < |s| ==> !p(s[n])
  {
    if s == [] || !p(s[0]) then 0 else 1 + LeadingCount(p, s[1..])
  }

  /** A prefix made of `p`-characters is no longer than the leading count. */
  lemma LeadingCountAtLeast(p: char -> bool, s: string, n: nat)
    requires n <= |s| && forall i :: 0 <= i < n ==> p(s[i])
    ensures LeadingCount(p, s) >= n
  {
  }

  /** A prefix made of `p`-characters and followed by a character outside `p`
      (or by the end of `s`) is exactly the leading count. */
  lemma LeadingCountExact(p: char -> bool, s: string, n: nat)
    requires n <= |s| && forall i :: 0 <= i < n ==> p(s[i])
    requires n < |s| ==> !p(s[n])
    ensures LeadingCount(p, s) == n
  {
    LeadingCountAtLeast(p, s, n);
  }

  /** Number of trailing characters of `s` that satisfy `p`. */
  function TrailingCount(p: char -> bool, s: string): (n: nat)
    ensures n <= |s|
    ensures forall i :: |s| - n <= i < |s| ==> p(s[i])
    ensures n < |s| ==> !p(s[|s| - 1 - n])
  {
    if s == [] || !p(s[|s| - 1]) then 0 else 1 + TrailingCount(p, s[..|s| - 1])
  }

  predicate AllWhitespace(s: string) {
    forall i :: 0 <= i < |s| ==> IsWhitespace(s[i])
  }

  /** `s` neither begins nor ends with whitespace. */
  predicate Stripped(s: string) {
    s == [] || (IsVisible(s[0]) && IsVisible(s[|s| - 1]))
  }

  /** Where the strip of `s` begins: the length of its leading whitespace. */
  function StripStart(s: string): nat {
    LeadingCount(IsWhitespace, s)
  }

  /** Python's `str.strip()` without arguments: the slice of `s` that is left
      when only whitespace is cut from either end, and as much of it as possible. */
  function Strip(s: string): (r: string)
    ensures |r| <= |s|
    ensures r == [] <==> AllWhitespace(s)
    ensures Stripped(r)
    ensures var lo := StripStart(s);
            && lo + |r| <= |s| && r == s[lo..lo + |r|]
            && AllWhitespace(s[..lo]) && AllWhitespace(s[lo + |r|..])
  {
    var lo := StripStart(s);
    LeadingWhitespace(s, lo);
    if lo == |s| then
      assert s[..lo] == s;
      []
    else
      var n := TrailingCount(IsWhitespace, s);
      TrailingWhitespace(s, n);
      var hi := |s| - n;
      assert lo < hi;
      SliceEnds(s, lo, hi);
      s[lo..hi]
  }

  /** The whitespace `str.strip()` cuts from the front. */
  lemma LeadingWhitespace(s: string, lo: nat)
    requires lo == LeadingCount(IsWhitespace, s)
    ensures AllWhitespace(s[..lo]) && (lo < |s| ==> IsVisible(s[lo]))
  {
    forall i | 0 <= i < lo ensures IsWhitespace(s[..lo][i]) {
      assert s[..lo][i] == s[i];
    }
  }

  /** The whitespace `str.strip()` cuts from the back. */
  lemma TrailingWhitespace(s: string, n: nat)
    requires n == TrailingCount(IsWhitespace, s)
    ensures AllWhitespace(s[|s| - n..]) && (n < |s| ==> IsVisible(s[|s| - 1 - n]))
  {
    var u := s[|s| - n..];
    forall i | 0 <= i < |u| ensures IsWhitespace(u[i]) {
      assert u[i] == s[|s| - n + i];
    }
  }

  /** A slice that starts and ends with a non-whitespace character. */
  lemma SliceEnds(s: string, lo: nat, hi: nat)
    requires lo < hi <= |s| && IsVisible(s[lo]) && IsVisible(s[hi - 1])
    ensures Stripped(s[lo..hi])
  {
    assert s[lo..hi][0] == s[lo] && s[lo..hi][hi - lo - 1] == s[hi - 1];
  }

  /** The characters of `s` that satisfy `p`, in order. */
  function Keep(p: char -> bool, s: string): (r: string)
    ensures |r| <= |s|
    ensures forall i :: 0 <= i < |r| ==> p(r[i])
  {
    if s == [] then [] else (if p(s[0]) then [s[0]] else []) + Keep(p, s[1..])
  }

  /** The non-whitespace characters of `s`, in order: what a reader sees. */
  function Visible(s: string): string {
    Keep(IsVisible, s)
  }

  lemma {:induction false} KeepAppend(p: char -> bool, a: string, b: string)
    ensures Keep(p, a + b) == Keep(p, a) + Keep(p, b)
  {
    if a == [] {
      assert a + b == b;
    } else {
      assert (a + b)[1..] == a[1..] + b;
      KeepAppend(p, a[1..], b);
    }
  }

  lemma {:induction false} KeepNone(p: char -> bool, s: string)
    requires forall i :: 0 <= i < |s| ==> !p(s[i])
    ensures Keep(p, s) == []
  {
    if s != [] {
      KeepNone(p, s[1..]);
    }
  }

  lemma {:induction false} KeepAll(p: char -> bool, s: string)
    requires forall i :: 0 <= i < |s| ==> p(s[i])
    ensures Keep(p, s) == s
  {
    if s != [] {
      KeepAll(p, s[1..]);
    }
  }

  /** Stripping removes only whitespace: what a reader sees is unchanged. */
  lemma StripKeepsVisible(s: string)
    ensures Visible(Strip(s)) == Visible(s)
  {
    var r := Strip(s);
    var lo := StripStart(s);
    assert s == s[..lo] + r + s[lo + |r|..];
    KeepAppend(IsVisible, s[..lo] + r, s[lo + |r|..]);
    KeepAppend(IsVisible, s[..lo], r);
    KeepNone(IsVisible, s[..lo]);
    KeepNone(IsVisible, s[lo + |r|..]);
  }

  /** A string with no whitespace at either end is its own strip. */
  lemma StripOfStripped(s: string)
    requires Stripped(s)
    ensures Strip(s) == s
  {
  }

  predicate AllVisible(s: string) {
    forall i :: 0 <= i < |s| ==> IsVisible(s[i])
  }

  /** Python's `str.split()` without arguments: the maximal runs of
      non-whitespace characters, in order. */
  function Words(s: string): (words: seq<string>)
    decreases |s|
  {
    if s == [] then []
    else if IsWhitespace(s[0]) then Words(s[1..])
    else
      var w := LeadingCount(IsVisible, s);
      [s[..w]] + Words(s[w..])
  }

  /** Python's `sep.join(parts)`. */
  function Join(parts: seq<string>, sep: string): string {
    if parts == [] then []
    else if |parts| == 1 then parts[0]
    else parts[0] + sep + Join(parts[1..], sep)
  }

  /** `sep.join` of a first part followed by at least one more. */
  lemma JoinCons(a: string, parts: seq<string>, sep: string)
    requires parts != []
    ensures Join([a] + parts, sep) == a + sep + Join(parts, sep)
  {
    assert ([a] + parts)[1..] == parts;
  }

  /** The words are non-empty runs of non-whitespace characters, and
      together they are exactly the visible characters of `s`, in order. */
  lemma {:induction false} WordsAreVisibleRuns(s: string)
    ensures forall k :: 0 <= k < |Words(s)| ==> Words(s)[k] != [] && AllVisible(Words(s)[k])
    ensures Join(Words(s), "") == Visible(s)
    decreases |s|
  {
    if s != [] {
      if IsWhitespace(s[0]) {
        WordsAreVisibleRuns(s[1..]);
      } else {
        var w := LeadingCount(IsVisible, s);
        var rest := Words(s[w..]);
        WordsAreVisibleRuns(s[w..]);
        assert Words(s) == [s[..w]] + rest;
        assert s == s[..w] + s[w..];
        KeepAppend(IsVisible, s[..w], s[w..]);
        KeepAll(IsVisible, s[..w]);
        if rest == [] {
          assert Join(Words(s), "") == s[..w];
        } else {
          JoinCons(s[..w], rest, "");
        }
      }
    }
  }

  /** Leading whitespace separates no words. */
  lemma {:induction false} WordsSkipWhitespace(s: string, n: nat)
    requires n <= |s| && AllWhitespace(s[..n])
    ensures Words(s) == Words(s[n..])
  {
    if n > 0 {
      assert s[..n][0] == s[0];
      assert s[1..][..n - 1] == s[..n][1..];
      WordsSkipWhitespace(s[1..], n - 1);
      assert s[1..][n - 1..] == s[n..];
    }
  }

  /** A word followed by whitespace, or by nothing, is the first word. */
  lemma WordsOfWordThen(v: string, x: string)
    requires v != [] && AllVisible(v)
    requires x == [] || IsWhitespace(x[0])
    ensures Words(v + x) == [v] + Words(x)
  {
    var t := v + x;
    assert t[0] == v[0];
    assert forall i :: 0 <= i < |v| ==> t[i] == v[i];
    assert |v| < |t| ==> t[|v|] == x[0];
    LeadingCountExact(IsVisible, t, |v|);
    assert t[..|v|] == v && t[|v|..] == x;
  }

  /** A string is its three slices at `i` and `j`, put back together. */
  lemma SplitThree(s: string, i: nat, j: nat)
    requires i <= j <= |s|
    ensures s == s[..i] + s[i..j] + s[j..]
  {
  }

  /** Concatenation is associative. */
  lemma AppendAssoc(a: string, b: string, c: string)
    ensures a + (b + c) == (a + b) + c
  {
  }

  /** An all-whitespace string has no words. */
  lemma WordsOfWhitespace(s: string)
    requires AllWhitespace(s)
    ensures Words(s) == []
  {
    LeadingCountAtLeast(IsWhitespace, s, |s|);
  }

  /** Leading whitespace, one word, then whitespace or nothing: the word
      comes first. */
  lemma WordsOfShape(pre: string, v: string, rest: string)
    requires AllWhitespace(pre) && v != [] && AllVisible(v)
    requires rest == [] || IsWhitespace(rest[0])
    ensures Words(pre + v + rest) == [v] + Words(rest)
  {
    var s := pre + v + rest;
    assert s[..|pre|] == pre && s[|pre|..] == v + rest;
    WordsSkipWhitespace(s, |pre|);
    WordsOfWordThen(v, rest);
  }

  /** A string with a non-whitespace character splits into leading
      whitespace, its first word, and what follows the word. */
  lemma FirstWord(x: string) returns (pre: string, v: string, rest: string)
    requires !AllWhitespace(x)
    ensures x == pre + v + rest
    ensures AllWhitespace(pre) && v != [] && AllVisible(v)
    ensures rest == [] || IsWhitespace(rest[0])
  {
    var n := LeadingCount(IsWhitespace, x);
    var u := x[n..];
    assert n < |x| && !IsWhitespace(u[0]);
    var w := LeadingCount(IsVisible, u);
    pre, v, rest := x[..n], u[..w], u[w..];
    assert AllWhitespace(pre) by {
      forall i | 0 <= i < n ensures IsWhitespace(pre[i]) {
        assert pre[i] == x[i];
      }
    }
    assert AllVisible(v) by {
      forall i | 0 <= i < w ensures IsVisible(v[i]) {
        assert v[i] == u[i];
      }
    }
    assert rest != [] ==> rest[0] == u[w];
    SplitThree(x, n, n + w);
    assert u[..w] == x[n..n + w] && u[w..] == x[n + w..];
  }

  /** Trailing whitespace separates no words. */
  lemma {:induction false} WordsDropTrailingWhitespace(x: string, y: string)
    requires AllWhitespace(y)
    ensures Words(x + y) == Words(x)
    decreases |x|
  {
    if AllWhitespace(x) {
      WordsOfWhitespace(x);
      WordsOfWhitespace(x + y);
    } else {
      var pre, v, rest := FirstWord(x);
      WordsOfShape(pre, v, rest);
      assert x + y == pre + v + (rest + y);
      assert rest + y == [] || IsWhitespace((rest + y)[0]);
      WordsOfShape(pre, v, rest + y);
      WordsDropTrailingWhitespace(rest, y);
    }
  }

  /** Whitespace around a string separates no words. */
  lemma WordsOfPadded(a: string, r: string, b: string)
    requires AllWhitespace(a) && AllWhitespace(b)
    ensures Words(a + r + b) == Words(r)
  {
    var s := a + r + b;
    assert s[..|a|] == a && s[|a|..] == r + b;
    WordsSkipWhitespace(s, |a|);
    WordsDropTrailingWhitespace(r, b);
  }

  /** Stripping keeps the words. */
  lemma StripKeepsWords(s: string)
    ensures Words(Strip(s)) == Words(s)
  {
    var r := Strip(s);
    var lo := StripStart(s);
    assert s == s[..lo] + r + s[lo + |r|..];
    WordsOfPadded(s[..lo], r, s[lo + |r|..]);
  }
}

=== FILE: wrappers.dfy ===
/** Python's `Optional`: a value that may be `None`. */
module Wrappers {
  datatype Option<T> = None | Some(value: T)
}
